=== FILE: README.md ===
# Cobra finding evaluator in Dafny

This project models the finding evaluator of the Cobra code scanner: the class
`Core` in `engine/core.py`. An upstream scanner finds a candidate match: a file,
a line and a rule. The evaluator decides what that match is and returns an
`(ok, code)` pair. It can reject the match through the white list, the
minified-file test or the comment test. It can confirm the match as a
file-existence finding (1001) or a vulnerability (1002). It can find that the
match is already repaired (1003). It can also fail with an uncontrollable
parameter, an analyzer exception, no applicable analysis or malformed evidence.
Every success hands the finding to `process_vulnerabilities`. When no stored
record matches the finding's key, one record is inserted and pushed to the
third-party tracker. When a record matches, nothing is inserted. The matching
record is pushed only when its stored status is new (0), and it is moved to
fixed (2) only when the verdict is fixed.

The model is functional. Each module follows one concern of the source:

- `Text` covers `str.strip()`, substring tests and `str.replace(dir, '')`.
- `Filters` covers `is_white_list`, `is_special_file`, `is_match_only_rule` and
  `is_annotation`. The comment regex is modelled as its alternatives at each
  position.
- `Escape` is a concrete model of the `unicode_escape` codec, together with the
  decoding of the escapes it writes.
- `Evidence` covers the 512-character bound, the evidence blob, and `re.findall`
  of the verify-mode extraction pattern. It also gives an independent
  line-by-line reading of that pattern.
- `Findings` holds the records, the dedup lookup and `process_vulnerabilities`.
- `Core` holds the constructor, the verify-mode preparation, the decision chain
  (`Classify`) and `Analyse`. `Decide` is the decision without its effect on the
  store. `Analyse` applies `process_vulnerabilities` to the finding that
  `Decide` chose to persist.
- `CoreProperties` states the chain's order and outcomes, the scan/verify round
  trip, and repeated evaluation.

The parameter-flow analyzer, `os.path.isfile` and the database are inputs to
`Analyse`. The analyzer is an `Analysis` value: it raised, the parameter is not
controllable, or it is controllable, with a repair verdict and an optional
parameter value. The file test is a boolean. The database and the notification
queue are a `World` value, which holds a sequence of records and a log of pushes.

Two behaviours of the code defeat what the code itself evidently intends. The
model follows the code as written in both cases:

- The extraction pattern at line 156, `(?!#\sTrigger)\r(.*)`, is evidently meant
  to skip the `# Trigger` header and return the payload written at line 223. Its
  lookahead sits at a position that must hold `\r`, so it never rejects
  anything, and the single match starts at the first carriage return of the
  blob. The round trip therefore holds only for a blob without a parameter block
  whose code is not empty after stripping. When the analyzer captured a
  parameter value (line 225) that holds no line feed, the first carriage return
  is the one after `# Param`, and verify mode sees the whole tail (value,
  separator, trigger header and payload) as the code
  (`Evidence.ParamEvidenceDoesNotRoundTrip`). That tail always contains `#`, so a
  rule that is neither a file rule nor match-only stops at one of the first three
  filters (4000, 4001 or, failing those, 4002) and never reaches the analyzer
  again (`CoreProperties.ParamEvidenceNotReanalysed`). A file rule does not read
  the code and confirms such a blob again with 1001
  (`CoreProperties.ParamEvidenceFileRule`). A value that holds a line feed splits
  the blob into lines of which at least two hold a carriage return, which gives at
  least two matches and 4009 (`Evidence.ParamLineFeedRejected`).
  When the code strips to nothing, the blob is `# Trigger\r`; the verify-side
  constructor strips it to `# Trigger`, which has no match, so verify mode
  rejects it with 4009 (`CoreProperties.EmptyCodeNotReverifiable`).
- A file-existence finding (empty location pattern) is stored at line 171 with
  its raw code, not an evidence blob. Verify mode still demands exactly one
  trigger match before it reaches the file-existence branch. Stored code without
  a carriage return is therefore rejected with 4009
  (`Evidence.NoCarriageReturnNoTrigger`, `CoreProperties.MalformedEvidenceRejected`).

## Model

| member | source | states |
|---|---|---|
| Text.StripIdempotent | engine/core.py:198 | Stripping an already stripped string changes nothing, so the second `strip()` of the repair pattern is a no-op |
| Text.StripEmptyIff | engine/core.py:50 | The stripped code is empty exactly when the code is whitespace only |
| Text.RemovePrefixedDirectory | engine/core.py:118 | Removing the project directory from `dir + path` gives `path` back, provided `path` does not itself contain the directory |
| Filters.MatchOnlyShape | engine/core.py:76-82 | A location is match-only exactly when it has at least two characters, starts with `(` and ends with `)`; a lone `(` is not match-only |
| Filters.HasMarkerIff | engine/core.py:96 | The comment regex finds a match exactly when the code contains `#`, `*` or `//` |
| Filters.AnnotationIff | engine/core.py:84-101 | The annotation filter holds exactly when the rule is not match-only and the code contains `#`, `*` or `//` |
| Escape.Escape | engine/core.py:220 | The escaped code consists of printable ASCII characters only and is no shorter than the input |
| Escape.UnescapeEscape | engine/core.py:220 | The escape is reversible: decoding the escaped code gives back exactly the code |
| Escape.EscapeKeepsStripped | engine/core.py:220 | Escaping stripped code gives a string that neither starts nor ends with whitespace |
| Evidence.Truncate | engine/core.py:221-222 | The payload is at most 512 characters; longer escaped code becomes its first 500 characters followed by `...` (503 in all); shorter code is kept whole |
| Evidence.Payload | engine/core.py:220-222 | The stored payload is at most 512 characters and contains no carriage return or line feed |
| Evidence.FindTriggersByLine | engine/core.py:156 | The regex scan yields, for each line-feed-delimited line that holds a carriage return, the text after its first carriage return, and nothing else |
| Evidence.DecodeEncode | engine/core.py:156-160 | A blob written for stripped code without a parameter value (line 223) yields exactly one match, and verify mode decodes it to the stored payload |
| Evidence.NoCarriageReturnNoTrigger | engine/core.py:156-159 | A blob without a carriage return yields no match and is rejected by verify mode |
| Evidence.ParamEvidenceDoesNotRoundTrip | engine/core.py:224-225 | With a parameter block whose value holds no line feed, the single match is everything after `# Param\r`, and the decoded code differs from the stored payload |
| Evidence.ParamLineFeedRejected | engine/core.py:224-225 | With a parameter block whose value holds a line feed, the blob yields at least two matches, so verify mode decodes nothing |
| Evidence.ParamTailKeepsMarker | engine/core.py:156-160 | With a parameter block whose value holds no line feed, verify mode decodes the stripped tail after `# Param\r`, and that code always contains `#` |
| Findings.Lookup | engine/core.py:119-123 | The lookup returns the first record matching project, rule and file, and also the line unless the line is 0; it returns none exactly when no record matches |
| Findings.FreshId | engine/core.py:140-143 | An inserted record receives an id that no stored record holds |
| Findings.Process | engine/core.py:111-143 | Old records keep every field but their status, which changes only to fixed; at most one record is added, and one is added exactly when no record matches the key; at most one notification is appended |
| Findings.ProcessExisting | engine/core.py:126-137 | On a lookup hit nothing is inserted; only the found record can change, and only to fixed when the finding is fixed; it is pushed exactly when its status is new, under its own id |
| Findings.ProcessMissing | engine/core.py:139-143 | On a miss exactly one record is appended under a fresh id, matching the key and carrying the finding's line, task, status and evidence, and it is pushed under that id |
| Findings.ProcessTwice | engine/core.py:118-143 | A second call with the same finding leaves the store exactly as the first call left it, so one key never gets two records and a status is never reverted |
| Core.Prepare | engine/core.py:152-160 | Scan mode leaves the state alone; verify mode succeeds exactly when the line-by-line reading of the blob has one trigger, and then changes only the path, to the project directory followed by the stored path, and the code, to that trigger stripped |
| Core.Classify | engine/core.py:161-230 | After preparation the chain returns one of the listed codes other than 4009; the verdict is a success exactly for codes below 4000, and exactly then a finding is persisted |
| Core.Decide | engine/core.py:145-230 | Every path returns one of the ten listed codes; success coincides with a code below 4000 and with a finding to persist |
| Core.Analyse | engine/core.py:145-230 | Every failure leaves records and notifications untouched; every success adds at most one record and never moves a status away from fixed |
| CoreProperties.InitStripped | engine/core.py:40-59 | The constructor strips the path, the code and both patterns, and starts the status at new |
| CoreProperties.FileRuleConfirmed | engine/core.py:161-172 | Once verify-mode extraction has succeeded, an empty location gives `(True, 1001)` whatever the white list, path or code; the persisted finding is fixed exactly in verify mode with the file gone, and new otherwise |
| CoreProperties.FilterPrecedence | engine/core.py:174-187 | A white-listed path gives 4000 even if it is minified or the code looks like a comment; otherwise a `.min.js` path gives 4001 before the annotation test; otherwise an annotation gives 4002; none of them persists |
| CoreProperties.MatchOnlyConfirmed | engine/core.py:189-194 | A match-only rule past the first two filters is never an annotation and gives `(True, 1002)` without the analyzer; the persisted finding is the state's own with its code replaced by a blob without a parameter block, and that blob decodes to the stored payload |
| CoreProperties.AnalyzerConsultedOnlyWhen | engine/core.py:195-198 | The analyzer's answer changes the decision only when all filters pass, the rule is not match-only, the path ends in `php` and the repair pattern is non-empty |
| CoreProperties.AnalyzerOutcomes | engine/core.py:198-217 | An exception gives 4005 and an uncontrollable parameter gives 4004, neither persisting; a repaired match persists the finding as fixed and gives 1003; otherwise the match is confirmed with the parameter value in its evidence |
| CoreProperties.ParamEvidenceFileRule | engine/core.py:152-172 | A file-existence rule confirms evidence with a parameter block whose value holds no line feed again with 1001, and the finding is fixed exactly when the file is gone or it already was |
| CoreProperties.ParamEvidenceNotReanalysed | engine/core.py:152-187 | Verify mode on evidence with a parameter block, for a rule that is neither a file rule nor match-only, gives 4009 when the value holds a line feed and otherwise 4000, 4001 or 4002 from the first three filters, so it never reaches the analyzer and persists nothing |
| CoreProperties.UnclassifiedFallthrough | engine/core.py:228-230 | A rule that is neither match-only nor eligible for the analyzer gives `(False, 4006)` and persists nothing |
| CoreProperties.MalformedEvidenceRejected | engine/core.py:152-159 | Verify mode returns `(False, 4009)` with the world unchanged whenever the blob does not give exactly one match, before any other check |
| CoreProperties.ScanThenVerify | engine/core.py:152-160 | A stored record built from non-empty code without a parameter value keeps its blob through the verify-side constructor's strip (line 50); verify mode then takes the stored payload as the code and the project directory followed by the stored relative path as the path |
| CoreProperties.EmptyCodeNotReverifiable | engine/core.py:156-159 | A record scanned from whitespace-only code holds the bare trigger header; the verify-side constructor strips it to `# Trigger`, and verify mode rejects it with `(False, 4009)` leaving the world unchanged |
| CoreProperties.VerifyKeepsKey | engine/core.py:154 | The absolute path built in verify mode is made relative again at line 118, so the finding is looked up under its stored path when that path does not contain the project directory |
| CoreProperties.AnalyseTwice | engine/core.py:111-143 | Two evaluations of the same match in a row give the same verdict, the second leaves the store unchanged, and at most one record is inserted |

## Left out

- The parameter-flow analyzer (`engine/parse`, `parse.Parse`) is not part of this model. Its answer for the match is the `Analysis` input. An exception anywhere in it, including in `is_repair`, is the single `Raises` case.
- The database (`CobraResults`, `db.session`) is a sequence of records. Transactions, commit failures and the row order behind `.first()` are not modelled. The lookup takes the first matching record in sequence order.
- An exception raised by `process_vulnerabilities` at line 206 falls inside the `try` and would give 4005. The model's store never fails, so this path does not occur.
- The tracker queue (`utils.queue.Queue.push`) is a log of attempted pushes. Its failures are swallowed by the source and are not modelled.
- `os.path.isfile` is a boolean input, standing for the test on the absolute path.
- Logging, traceback printing and Python 2 `e.message` are left out. They do not affect the result.
- Escape: models the `unicode_escape` codec on a unicode string in a wide Python build. It leaves out Python 2 byte strings, where a non-ASCII byte raises an uncaught decode error.
- Text.Strip: removes the six ASCII whitespace characters of Python 2 `str.strip()`. It leaves out the wider Unicode whitespace set of `unicode.strip()`.
- The parameter value is a string. The source formats whatever object the analyzer supplies with `str()`.
- The lookup-then-insert sequence is not atomic under concurrent workers. A sequential model cannot show that gap.
- General regular-expression matching is replaced by the concrete predicates that the patterns at lines 96 and 156 amount to.
- Missing keys in the constructor's input dictionary, which raise `KeyError`, are not modelled. Every input is present.
- Record ids, project ids, rule ids and line numbers are unbounded naturals. The database's column widths are not modelled.

=== FILE: core.dfy ===
/**
 * The finding evaluator, `Core.analyse` (engine/core.py, lines 145-230): verify-mode
 * evidence extraction, the file-existence rule, the filter chain, the match-only or
 * analyzer decision, and evidence encoding, each ending in an `(ok, code)` pair.
 *
 * The parameter-flow analyzer, `os.path.isfile` and the database are inputs: the
 * analyzer's answer for this match, whether the file exists, and the world of
 * records and notifications.
 */
module Core {
  import opened Wrappers
  import opened Text
  import opened Filters
  import Evidence
  import opened Findings

  const FILE_RULE_CONFIRMED: int := 1001
  const CONFIRMED: int := 1002
  const CONFIRMED_FIXED: int := 1003
  const WHITE_LISTED: int := 4000
  const SPECIAL_FILE: int := 4001
  const IN_ANNOTATION: int := 4002
  const UNCONTROLLABLE: int := 4004
  const ANALYZER_FAILED: int := 4005
  const UNCLASSIFIED: int := 4006
  const MALFORMED_EVIDENCE: int := 4009

  /** Every code `analyse` can return. */
  predicate IsOutcomeCode(code: int) {
    code in {FILE_RULE_CONFIRMED, CONFIRMED, CONFIRMED_FIXED, WHITE_LISTED, SPECIAL_FILE,
             IN_ANNOTATION, UNCONTROLLABLE, ANALYZER_FAILED, UNCLASSIFIED, MALFORMED_EVIDENCE}
  }

  /** `analyse(method)`: `method == 1` re-checks a stored finding, anything else scans. */
  datatype Mode = Scan | Verify

  /** A rule: the location pattern, the repair pattern, and the block-repair flag,
      which only the analyzer reads. */
  datatype Rule = Rule(location: string, repair: string, blockRepair: bool)

  /** One candidate match as the scanner hands it over. */
  datatype Candidate = Candidate(
    projectId: nat, projectDirectory: string, ruleId: nat, taskId: nat,
    vulnName: string, vulnType: string, filePath: string, line: nat, code: string)

  /** What the parameter-flow analyzer answers for this match: it raised, the
      parameter is not controllable, or it is, with the repair verdict and the
      parameter's value when one was captured. */
  datatype Analysis = Raises | Uncontrollable | Controllable(repaired: bool, paramValue: Option<string>)

  /** The evaluator object: the finding being built plus the rule and white list. */
  datatype State = State(finding: Finding, location: string, repair: string, blockRepair: bool, whiteList: seq<string>)

  /** The verdict and the finding to hand to `process_vulnerabilities`, if any. */
  datatype Decision = Decision(ok: bool, code: int, persist: Option<Finding>)

  /** The verdict and the world after it. */
  datatype Outcome = Outcome(ok: bool, code: int, world: World)

  /** The constructor (lines 26-59): paths, code and patterns are stripped, and the
      status starts new. */
  function Init(c: Candidate, rule: Rule, projectName: string, whiteList: seq<string>): State {
    State(
      Finding(c.projectId, c.projectDirectory, c.ruleId, c.taskId, projectName, c.vulnName, c.vulnType,
              Strip(c.filePath), c.line, Strip(c.code), New),
      Strip(rule.location), Strip(rule.repair), rule.blockRepair, whiteList)
  }

  /** Python's `s[-3:]`. */
  function LastThree(s: string): string {
    if |s| >= 3 then s[|s| - 3..] else s
  }

  /** The analyzer is consulted only for a PHP path and a non-empty repair pattern
      (line 198). */
  predicate AnalyzerApplies(s: State) {
    LastThree(s.finding.filePath) == "php" && Strip(s.repair) != ""
  }

  /** Verify-mode preparation (lines 152-160): the path is made absolute and the code
      is replaced by the stripped trigger text, which must be the blob's only match.
      Scan mode leaves the state as it is. The result is stated against the
      line-by-line reading of the extraction pattern. */
  function Prepare(s: State, mode: Mode): (r: Option<State>)
    ensures mode == Scan ==> r == Some(s)
    ensures mode == Verify ==> (r.Some? <==> |Evidence.LineTriggers(s.finding.code)| == 1)
    ensures mode == Verify && r.Some? ==>
      r.value == s.(finding := s.finding.(
        filePath := s.finding.projectDirectory + s.finding.filePath,
        code := Strip(Evidence.LineTriggers(s.finding.code)[0])))
  {
    if mode == Scan then Some(s)
    else
      Evidence.FindTriggersByLine(s.finding.code);
      match Evidence.Decode(s.finding.code)
      case None => None
      case Some(trigger) =>
        Some(s.(finding := s.finding.(filePath := s.finding.projectDirectory + s.finding.filePath, code := trigger)))
  }

  /** A new confirmation: the code is replaced by its evidence blob (lines 219-227). */
  function Confirm(f: Finding, param: Option<string>): Decision {
    Decision(true, CONFIRMED, Some(f.(code := Evidence.Encode(f.code, param))))
  }

  /** The decision chain after preparation (lines 161-230). */
  function Classify(s: State, mode: Mode, fileExists: bool, analysis: Analysis): (d: Decision)
    ensures IsOutcomeCode(d.code) && d.code != MALFORMED_EVIDENCE
    ensures d.ok <==> d.code < 4000
    ensures d.ok <==> d.persist.Some?
  {
    var f := s.finding;
    if s.location == "" then
      Decision(true, FILE_RULE_CONFIRMED, Some(if mode == Verify && !fileExists then f.(status := Fixed) else f))
    else if IsWhiteList(f.filePath, s.whiteList) then Decision(false, WHITE_LISTED, None)
    else if IsSpecialFile(f.filePath) then Decision(false, SPECIAL_FILE, None)
    else if IsAnnotation(s.location, f.code) then Decision(false, IN_ANNOTATION, None)
    else if IsMatchOnlyRule(s.location) then Confirm(f, None)
    else if AnalyzerApplies(s) then
      match analysis
      case Raises => Decision(false, ANALYZER_FAILED, None)
      case Uncontrollable => Decision(false, UNCONTROLLABLE, None)
      case Controllable(repaired, paramValue) =>
        if repaired then Decision(true, CONFIRMED_FIXED, Some(f.(status := Fixed)))
        else Confirm(f, paramValue)
    else Decision(false, UNCLASSIFIED, None)
  }

  /** `analyse` without its effect on the world. */
  function Decide(s: State, mode: Mode, fileExists: bool, analysis: Analysis): (d: Decision)
    ensures IsOutcomeCode(d.code)
    ensures d.ok <==> d.code < 4000
    ensures d.ok <==> d.persist.Some?
  {
    match Prepare(s, mode)
    case None => Decision(false, MALFORMED_EVIDENCE, None)
    case Some(s') => Classify(s', mode, fileExists, analysis)
  }

  /** `analyse`: every failure leaves the world as it was; a success runs
      `process_vulnerabilities` once, which adds at most one record and never moves
      a status away from fixed. */
  function Analyse(s: State, mode: Mode, fileExists: bool, analysis: Analysis, w: World): (r: Outcome)
    ensures IsOutcomeCode(r.code)
    ensures r.ok <==> r.code in {FILE_RULE_CONFIRMED, CONFIRMED, CONFIRMED_FIXED}
    ensures !r.ok ==> r.world == w
    ensures Evolves(w.store, r.world.store) && |r.world.store| <= |w.store| + 1
  {
    var d := Decide(s, mode, fileExists, analysis);
    Outcome(d.ok, d.code, if d.persist.Some? then Process(w, d.persist.value) else w)
  }
}

=== FILE: escape.dfy ===
/**
 * Python's `unicode_escape` encoding of a unicode string (wide build), applied to the
 * matched code before it is stored as evidence, and the decoding of the escapes it
 * produces.
 */
module Escape {
  import opened Wrappers
  import opened Text

  /** Printable US-ASCII: the only characters `unicode_escape` emits. */
  predicate IsPrintable(c: char) {
    0x20 <= c as int < 0x7F
  }

  predicate IsHexDigit(c: char) {
    ('0' <= c <= '9') || ('a' <= c <= 'f')
  }

  predicate AllHex(s: string) {
    forall i :: 0 <= i < |s| ==> IsHexDigit(s[i])
  }

  /** The lower-case hexadecimal digit for `d`. */
  function HexDigit(d: nat): (c: char)
    requires d < 16
    ensures IsHexDigit(c)
  {
    if d < 10 then ('0' as int + d) as char else ('a' as int + d - 10) as char
  }

  function HexValue(c: char): (d: nat)
    requires IsHexDigit(c)
    ensures d < 16
    ensures HexDigit(d) == c
  {
    if c <= '9' then c as int - '0' as int else c as int - 'a' as int + 10
  }

  function Pow16(width: nat): (p: nat)
    ensures p > 0
  {
    if width == 0 then 1 else 16 * Pow16(width - 1)
  }

  /** The `width` low hexadecimal digits of `n`, most significant first. */
  function Hex(n: nat, width: nat): (r: string)
    ensures |r| == width && AllHex(r)
  {
    if width == 0 then [] else Hex(n / 16, width - 1) + [HexDigit(n % 16)]
  }

  /** The value of a string of hexadecimal digits. */
  function ParseHex(s: string): (n: nat)
    requires AllHex(s)
    ensures n < Pow16(|s|)
  {
    if s == [] then 0 else ParseHex(s[..|s| - 1]) * 16 + HexValue(s[|s| - 1])
  }

  /** Reading back `width` digits of a number that fits in them gives the number. */
  lemma {:induction false} ParseHexOfHex(n: nat, width: nat)
    requires n < Pow16(width)
    ensures ParseHex(Hex(n, width)) == n
  {
    if width > 0 {
      var h := Hex(n, width);
      assert h[..width - 1] == Hex(n / 16, width - 1);
      assert n / 16 < Pow16(width - 1);
      ParseHexOfHex(n / 16, width - 1);
      assert HexValue(HexDigit(n % 16)) == n % 16;
    }
  }

  /** How `unicode_escape` writes one character. */
  function EscapeChar(c: char): (r: string)
    ensures |r| > 0
  {
    if c == '\\' then "\\\\"
    else if c as int >= 0x10000 then "\\U" + Hex(c as int, 8)
    else if c as int >= 0x100 then "\\u" + Hex(c as int, 4)
    else if c == '\t' then "\\t"
    else if c == '\n' then "\\n"
    else if c == '\r' then "\\r"
    else if c as int < 0x20 || c as int >= 0x7F then "\\x" + Hex(c as int, 2)
    else [c]
  }

  /** `code.encode('unicode_escape')`: the output is printable ASCII only, so it
      never holds a line break or carriage return. */
  function Escape(s: string): (r: string)
    ensures |r| >= |s|
    ensures forall i :: 0 <= i < |r| ==> IsPrintable(r[i])
  {
    if s == [] then [] else EscapeChar(s[0]) + Escape(s[1..])
  }

  /** A valid Dafny character (a Unicode scalar value). */
  predicate IsScalar(v: nat) {
    v < 0xD800 || (0xE000 <= v < 0x11_0000)
  }

  function Prepend(c: char, rest: Option<string>): Option<string> {
    match rest
    case None => None
    case Some(t) => Some([c] + t)
  }

  /** The number of hexadecimal digits after an `x`, `u` or `U` escape tag. */
  function HexWidth(tag: char): nat {
    if tag == 'x' then 2 else if tag == 'u' then 4 else if tag == 'U' then 8 else 0
  }

  /** Decodes the character at the start of a non-empty escaped string: the
      character and how many input characters it took, or `None` for a malformed
      escape. */
  function DecodeStep(e: string): (r: Option<(char, nat)>)
    requires e != []
    ensures r.Some? ==> 0 < r.value.1 <= |e|
  {
    if e[0] != '\\' then Some((e[0], 1))
    else if |e| < 2 then None
    else if e[1] == '\\' then Some(('\\', 2))
    else if e[1] == 't' then Some(('\t', 2))
    else if e[1] == 'n' then Some(('\n', 2))
    else if e[1] == 'r' then Some(('\r', 2))
    else if HexWidth(e[1]) > 0 then
      var width := HexWidth(e[1]);
      if |e| < 2 + width || !AllHex(e[2..2 + width]) then None
      else
        var v := ParseHex(e[2..2 + width]);
        if IsScalar(v) then Some((v as char, 2 + width)) else None
    else None
  }

  /** Decoding of the escapes `Escape` writes; `None` for a malformed escape. */
  function Unescape(e: string): Option<string>
    decreases |e|
  {
    if e == [] then Some([])
    else
      match DecodeStep(e)
      case None => None
      case Some((c, n)) => Prepend(c, Unescape(e[n..]))
  }

  lemma DecodeHexEscape(c: char, tag: char, rest: string)
    requires tag == 'x' || tag == 'u' || tag == 'U'
    requires c as int < Pow16(HexWidth(tag))
    ensures DecodeStep("\\" + [tag] + Hex(c as int, HexWidth(tag)) + rest) == Some((c, 2 + HexWidth(tag)))
  {
    var width := HexWidth(tag);
    var h := Hex(c as int, width);
    var e := "\\" + [tag] + h + rest;
    assert e[0] == '\\' && e[1] == tag;
    assert e[2..2 + width] == h;
    ParseHexOfHex(c as int, width);
  }

  /** Decoding one step undoes the escape of a single character. */
  lemma DecodeEscapeChar(c: char, rest: string)
    ensures DecodeStep(EscapeChar(c) + rest) == Some((c, |EscapeChar(c)|))
  {
    var e := EscapeChar(c) + rest;
    if c == '\\' {
      assert e[0] == '\\' && e[1] == '\\';
    } else if c as int >= 0x10000 {
      assert Pow16(8) == 0x1_0000_0000;
      DecodeHexEscape(c, 'U', rest);
    } else if c as int >= 0x100 {
      assert Pow16(4) == 0x1_0000;
      DecodeHexEscape(c, 'u', rest);
    } else if c == '\t' {
      assert e[0] == '\\' && e[1] == 't';
    } else if c == '\n' {
      assert e[0] == '\\' && e[1] == 'n';
    } else if c == '\r' {
      assert e[0] == '\\' && e[1] == 'r';
    } else if c as int < 0x20 || c as int >= 0x7F {
      assert Pow16(2) == 0x100;
      DecodeHexEscape(c, 'x', rest);
    } else {
      assert e[0] == c;
    }
  }

  /** The escape is reversible: decoding the escaped code gives the code back. */
  lemma {:induction false} UnescapeEscape(s: string)
    ensures Unescape(Escape(s)) == Some(s)
  {
    if s != [] {
      var e := Escape(s);
      var head := EscapeChar(s[0]);
      DecodeEscapeChar(s[0], Escape(s[1..]));
      assert e[|head|..] == Escape(s[1..]);
      UnescapeEscape(s[1..]);
      assert [s[0]] + s[1..] == s;
    }
  }

  /** Escaping keeps a string in stripped form: a non-space first or last character
      is written as itself or as an escape that starts with a backslash and ends
      with a letter or digit. */
  lemma EscapeKeepsStripped(s: string)
    requires IsStripped(s)
    ensures IsStripped(Escape(s))
  {
    if s != [] {
      EscapeEnds(s);
      EscapeCharEnds(s[0]);
      EscapeCharEnds(s[|s| - 1]);
    }
  }

  /** The escape of a non-space character neither starts nor ends with a space. */
  lemma EscapeCharEnds(c: char)
    requires !IsSpace(c)
    ensures var r := EscapeChar(c); !IsSpace(r[0]) && !IsSpace(r[|r| - 1])
  {
    var r := EscapeChar(c);
    assert r[0] == c || r[0] == '\\';
    assert IsHexDigit(r[|r| - 1]) || r[|r| - 1] in "\\tnr" || r[|r| - 1] == c;
  }

  lemma {:induction false} EscapeEnds(s: string)
    requires s != []
    ensures Escape(s) != [] && Escape(s)[0] == EscapeChar(s[0])[0]
    ensures var e := Escape(s); var l := EscapeChar(s[|s| - 1]); e[|e| - 1] == l[|l| - 1]
  {
    if |s| > 1 {
      EscapeEnds(s[1..]);
      assert s[1..][|s[1..]| - 1] == s[|s| - 1];
    }
  }
}

=== FILE: evidence.dfy ===
/**
 * The evidence blob stored with a confirmed finding (engine/core.py, lines 219-225)
 * and its extraction in verify mode (lines 155-160).
 */
module Evidence {
  import opened Wrappers
  import opened Text
  import Escape

  const TRIGGER_HEADER: string := "# Trigger\r"
  const PARAM_HEADER: string := "# Param\r"
  const CONTINUATION: string := "\r//\r// ------ Continue... ------\r//\r"
  /** The continuation separator without its leading carriage return. */
  const SEPARATOR: string := "//\r// ------ Continue... ------\r//\r"
  /** The trigger header without its carriage return. */
  const TRIGGER_MARK: string := "# Trigger"
  /** Escaped code longer than this is cut. */
  const EVIDENCE_LIMIT: nat := 512
  /** How much of a cut payload is kept, before the truncation mark. */
  const TRUNCATED_KEEP: nat := 500
  const TRUNCATION_MARK: string := "..."

  /** The length bound of lines 221-222: code over the limit keeps its first 500
      characters followed by `...`. */
  function Truncate(e: string): (p: string)
    ensures |p| <= EVIDENCE_LIMIT
    ensures |e| <= EVIDENCE_LIMIT ==> p == e
    ensures |e| > EVIDENCE_LIMIT ==>
      |p| == TRUNCATED_KEEP + 3 && p[..TRUNCATED_KEEP] == e[..TRUNCATED_KEEP] && p[TRUNCATED_KEEP..] == TRUNCATION_MARK
  {
    if |e| > EVIDENCE_LIMIT then e[..TRUNCATED_KEEP] + TRUNCATION_MARK else e
  }

  /** The trigger text stored for `code`: escaped, then bounded. */
  function Payload(code: string): (p: string)
    ensures |p| <= EVIDENCE_LIMIT
    ensures '\r' !in p && '\n' !in p
  {
    var e := Escape.Escape(code);
    var p := Truncate(e);
    assert forall i :: 0 <= i < |p| ==> Escape.IsPrintable(p[i]);
    p
  }

  /** The evidence blob: a trigger block, preceded by a parameter block when the
      analyzer reported the controllable parameter's value. */
  function Encode(code: string, param: Option<string>): string {
    var trigger := TRIGGER_HEADER + Payload(code);
    match param
    case None => trigger
    case Some(v) => PARAM_HEADER + v + CONTINUATION + trigger
  }

  /** The negative lookahead `(?!#\sTrigger)` of the extraction pattern: it rejects a
      position where `# Trigger` (with any whitespace for the space) begins. */
  predicate TriggerHeaderAhead(s: string) {
    |s| >= 9 && s[0] == '#' && IsSpace(s[1]) && s[2..9] == "Trigger"
  }

  /** The extraction pattern `(?!#\sTrigger)\r(.*)` matches at the start of `s`. */
  predicate MatchStart(s: string) {
    !TriggerHeaderAhead(s) && |s| > 0 && s[0] == '\r'
  }

  /** The index of the first `c` in `s`, or `|s|` when there is none. */
  function FirstIndex(s: string, c: char): (k: nat)
    ensures k <= |s|
    ensures c !in s[..k]
    ensures k < |s| ==> s[k] == c
  {
    if s == [] then 0 else if s[0] == c then 0 else 1 + FirstIndex(s[1..], c)
  }

  /** `re.findall` of the extraction pattern over `s`: at a match, `.*` takes every
      character up to the next line feed (it also takes further carriage returns),
      and the search resumes where the match ended. */
  function FindTriggers(s: string): seq<string>
    decreases |s|
  {
    if s == [] then []
    else if MatchStart(s) then
      var j := 1 + FirstIndex(s[1..], '\n');
      [s[1..j]] + FindTriggers(s[j..])
    else FindTriggers(s[1..])
  }

  /** The trigger of one line: the text after its first carriage return, if any. */
  function LineTrigger(line: string): seq<string> {
    var k := FirstIndex(line, '\r');
    if k < |line| then [line[k + 1..]] else []
  }

  /** A reference reading of the extraction: split `s` at line feeds and take, from
      each line holding a carriage return, the text after its first one. */
  function LineTriggers(s: string): seq<string>
    decreases |s|
  {
    var k := FirstIndex(s, '\n');
    LineTrigger(s[..k]) + (if k < |s| then LineTriggers(s[k + 1..]) else [])
  }

  /** Verify-mode extraction (lines 156-160): exactly one match is required, and the
      match is stripped. */
  function Decode(blob: string): Option<string> {
    var triggers := FindTriggers(blob);
    if |triggers| == 1 then Some(Strip(triggers[0])) else None
  }

  lemma LineTriggerCons(c: char, line: string)
    requires c != '\r'
    ensures LineTrigger([c] + line) == LineTrigger(line)
  {
    assert ([c] + line)[1..] == line;
    var k := FirstIndex(line, '\r');
    if k < |line| {
      assert ([c] + line)[k + 2..] == line[k + 1..];
    }
  }

  /** The regex scan agrees with the line-by-line reading: the lookahead is vacuous,
      since it can only reject a position holding `#`, never one holding `\r`. */
  lemma {:induction false} FindTriggersByLine(s: string)
    ensures FindTriggers(s) == LineTriggers(s)
    decreases |s|, 1
  {
    if s == [] {
    } else if s[0] == '\r' {
      ScanAtCarriageReturn(s);
    } else if s[0] == '\n' {
      ScanAtLineFeed(s);
    } else {
      ScanAtOther(s);
    }
  }

  /** A match starts at a carriage return and runs to the end of its line; the scan
      resumes after the line feed. */
  lemma ScanAtCarriageReturn(s: string)
    requires s != [] && s[0] == '\r'
    ensures FindTriggers(s) == LineTriggers(s)
    decreases |s|, 0
  {
    assert MatchStart(s);
    var j := 1 + FirstIndex(s[1..], '\n');
    assert FindTriggers(s) == [s[1..j]] + FindTriggers(s[j..]);
    assert FirstIndex(s, '\n') == j;
    assert FirstIndex(s[..j], '\r') == 0;
    assert LineTrigger(s[..j]) == [s[1..j]];
    if j < |s| {
      FindTriggersByLine(s[j + 1..]);
      var t := s[j..];
      assert t[0] == '\n' && !MatchStart(t);
      assert t[1..] == s[j + 1..];
      assert FindTriggers(t) == FindTriggers(s[j + 1..]);
    } else {
      assert s[j..] == [];
    }
  }

  /** A line feed ends an empty line, which holds no match. */
  lemma ScanAtLineFeed(s: string)
    requires s != [] && s[0] == '\n'
    ensures FindTriggers(s) == LineTriggers(s)
    decreases |s|, 0
  {
    FindTriggersByLine(s[1..]);
    assert !MatchStart(s);
    assert FindTriggers(s) == FindTriggers(s[1..]);
    assert FirstIndex(s, '\n') == 0;
    var empty := s[..0];
    assert empty == [];
    assert LineTrigger(empty) == [];
    assert LineTriggers(s) == LineTrigger(empty) + LineTriggers(s[1..]);
  }

  /** Any other character is skipped by the scan and does not change the trigger of
      its line. */
  lemma ScanAtOther(s: string)
    requires s != [] && s[0] != '\n' && s[0] != '\r'
    ensures FindTriggers(s) == LineTriggers(s)
    decreases |s|, 0
  {
    FindTriggersByLine(s[1..]);
    assert !MatchStart(s);
    var k := FirstIndex(s[1..], '\n');
    assert FirstIndex(s, '\n') == k + 1;
    assert s[..k + 1] == [s[0]] + s[1..][..k];
    LineTriggerCons(s[0], s[1..][..k]);
    if k + 1 < |s| {
      assert s[k + 2..] == s[1..][k + 1..];
    }
  }

  lemma FirstIndexAppend(a: string, b: string, c: char)
    requires c !in a
    ensures FirstIndex(a + b, c) == |a| + FirstIndex(b, c)
    decreases |a|
  {
    if a == [] {
      assert a + b == b;
    } else {
      assert (a + b)[0] == a[0] != c;
      assert (a + b)[1..] == a[1..] + b;
      assert c !in a[1..] by {
        assert forall i :: 0 <= i < |a[1..]| ==> a[1..][i] == a[i + 1];
      }
      FirstIndexAppend(a[1..], b, c);
    }
  }

  lemma {:induction false} FirstIndexAbsent(s: string, c: char)
    requires c !in s
    ensures FirstIndex(s, c) == |s|
    decreases |s|
  {
    if s != [] {
      FirstIndexAbsent(s[1..], c);
    }
  }

  /** A single line `h + '\r' + m` yields exactly one match, the text `m` after its
      first carriage return; `.*` runs on over any further carriage returns in `m`. */
  lemma SingleLineTrigger(h: string, m: string)
    requires '\r' !in h && '\n' !in h && '\n' !in m
    ensures FindTriggers(h + "\r" + m) == [m]
  {
    var s := h + ("\r" + m);
    assert s == h + "\r" + m;
    FindTriggersByLine(s);
    assert '\n' !in s;
    OneLine(s);
    FirstIndexAppend(h, "\r" + m, '\r');
    assert s[|h| + 1..] == m;
  }

  /** Text without a line feed is a single line. */
  lemma OneLine(s: string)
    requires '\n' !in s
    ensures LineTriggers(s) == LineTrigger(s)
  {
    FirstIndexAbsent(s, '\n');
    assert s[..|s|] == s;
  }

  /** Extraction without a parameter block (the round trip of lines 223 and 156):
      the blob yields exactly one match, the stored payload, which stripping
      leaves alone when the encoded code was itself stripped. */
  lemma DecodeEncode(code: string)
    requires IsStripped(code)
    ensures FindTriggers(Encode(code, None)) == [Payload(code)]
    ensures Decode(Encode(code, None)) == Some(Payload(code))
  {
    var p := Payload(code);
    assert TRIGGER_HEADER == "# Trigger" + "\r";
    SingleLineTrigger("# Trigger", p);
    PayloadStripped(code);
    StripStripped(p);
  }

  /** The blob for non-empty stripped code is itself stripped: it starts with `#` and
      ends with the payload's last character. */
  lemma EncodeStripped(code: string)
    requires IsStripped(code) && code != []
    ensures IsStripped(Encode(code, None))
  {
    var p := Payload(code);
    PayloadStripped(code);
    assert p != [] by {
      assert |Escape.Escape(code)| >= 1;
    }
    var blob := Encode(code, None);
    assert blob == TRIGGER_HEADER + p;
    assert blob[0] == '#';
    assert blob[|blob| - 1] == p[|p| - 1];
  }

  /** The blob for empty code is the bare trigger header, which stripping cuts back to
      `# Trigger`, a string with no carriage return. */
  lemma EmptyCodeBlob()
    ensures Strip(Encode([], None)) == "# Trigger"
    ensures FindTriggers("# Trigger") == []
  {
    var header := "# Trigger";
    assert Payload([]) == [] by {
      assert Escape.Escape([]) == [];
    }
    var blob := Encode([], None);
    assert blob == header + "\r";
    assert blob[..|blob| - 1] == header;
    StripDropsFinalCarriageReturn(header);
    assert '\r' !in header;
    NoCarriageReturnNoTrigger(header);
  }

  lemma StripDropsFinalCarriageReturn(h: string)
    requires h != [] && IsStripped(h)
    ensures Strip(h + "\r") == h
  {
    var s := h + "\r";
    assert s[0] == h[0] && s[|s| - 1] == '\r';
    assert TrimStart(s) == s;
    assert s[..|s| - 1] == h;
    assert TrimEnd(s) == TrimEnd(h);
    assert TrimEnd(h) == h;
  }

  /** The payload of stripped code is itself stripped. */
  lemma PayloadStripped(code: string)
    requires IsStripped(code)
    ensures IsStripped(Payload(code))
  {
    var e := Escape.Escape(code);
    Escape.EscapeKeepsStripped(code);
    if |e| > EVIDENCE_LIMIT {
      var p := Truncate(e);
      assert p[0] == e[0];
      assert p[|p| - 1] == '.';
    }
  }

  /** A blob with no carriage return has no match, so verify mode rejects it. */
  lemma {:induction false} NoCarriageReturnNoTrigger(s: string)
    requires '\r' !in s
    ensures FindTriggers(s) == []
    ensures Decode(s) == None
    decreases |s|
  {
    if s != [] {
      assert !MatchStart(s);
      NoCarriageReturnNoTrigger(s[1..]);
    }
  }

  /** The extraction does not skip a parameter block: for a value without line feeds
      its single match is everything after `# Param\r`, so the decoded text is longer
      than the stored payload. */
  lemma ParamEvidenceDoesNotRoundTrip(code: string, v: string)
    requires IsStripped(code) && code != []
    requires '\n' !in v
    ensures FindTriggers(Encode(code, Some(v))) == [v + CONTINUATION + TRIGGER_HEADER + Payload(code)]
    ensures Decode(Encode(code, Some(v))) != Some(Payload(code))
  {
    var p := Payload(code);
    PayloadStripped(code);
    assert p != [] by {
      assert |Escape.Escape(code)| >= 1;
    }
    ParamBlobMatch(v, p);
  }

  /** A parameter value holding a line feed splits the blob into two lines, each with
      a carriage return: the scan finds at least two matches, and verify mode rejects
      the blob. */
  lemma ParamLineFeedRejected(code: string, v: string)
    requires '\n' in v
    ensures |FindTriggers(Encode(code, Some(v)))| >= 2
    ensures Decode(Encode(code, Some(v))) == None
  {
    ParamLineFeedBlob(v, Payload(code));
  }

  /** The parameter-block blob around a payload `p`, with `p` left abstract. */
  lemma ParamLineFeedBlob(v: string, p: string)
    requires '\n' in v
    ensures |FindTriggers(PARAM_HEADER + v + CONTINUATION + (TRIGGER_HEADER + p))| >= 2
  {
    var rest := CONTINUATION + (TRIGGER_HEADER + p);
    var s := PARAM_HEADER + v + CONTINUATION + (TRIGGER_HEADER + p);
    assert s == PARAM_HEADER + (v + rest);
    assert PARAM_HEADER[7] == '\r' && '\n' !in PARAM_HEADER;
    assert rest[0] == '\r';
    TwoMatchingLines(PARAM_HEADER, v, rest);
    FindTriggersByLine(s);
  }

  /** A line feed in `v` ends a first line `h + ...` holding a carriage return; the
      carriage return in `rest` then lies on a later line. */
  lemma TwoMatchingLines(h: string, v: string, rest: string)
    requires '\r' in h && '\n' !in h && '\n' in v && '\r' in rest
    ensures |LineTriggers(h + (v + rest))| >= 2
  {
    var s := h + (v + rest);
    FirstIndexWithin(v, rest, '\n');
    FirstIndexAppend(h, v + rest, '\n');
    var j :| 0 <= j < |h| && h[j] == '\r';
    var r :| 0 <= r < |rest| && rest[r] == '\r';
    assert s[j] == '\r' && s[|h| + |v| + r] == '\r';
    CarriageReturnsOnTwoLines(s, j, |h| + |v| + r);
  }

  /** Carriage returns before and after the first line feed give two matches. */
  lemma CarriageReturnsOnTwoLines(s: string, j: nat, r: nat)
    requires j < FirstIndex(s, '\n') < r < |s| && s[j] == '\r' && s[r] == '\r'
    ensures |LineTriggers(s)| >= 2
  {
    var k := FirstIndex(s, '\n');
    assert LineTrigger(s[..k]) != [] by {
      assert s[..k][j] == '\r';
      LineTriggerPresent(s[..k]);
    }
    assert LineTriggers(s[k + 1..]) != [] by {
      assert s[k + 1..][r - k - 1] == '\r';
      CarriageReturnTriggers(s[k + 1..]);
    }
    TwoLineCount(s, k);
  }

  /** A first line with a match followed by text with a match gives two matches. */
  lemma TwoLineCount(s: string, k: nat)
    requires k == FirstIndex(s, '\n') && k < |s|
    requires LineTrigger(s[..k]) != [] && LineTriggers(s[k + 1..]) != []
    ensures |LineTriggers(s)| >= 2
  {
    var first, rest := LineTrigger(s[..k]), LineTriggers(s[k + 1..]);
    assert LineTriggers(s) == first + rest;
    assert |first + rest| == |first| + |rest|;
  }

  /** The first `c` in `a + b` is the first in `a` when `a` holds one. */
  lemma {:induction false} FirstIndexWithin(a: string, b: string, c: char)
    requires c in a
    ensures FirstIndex(a + b, c) == FirstIndex(a, c)
    decreases |a|
  {
    if a[0] != c {
      assert (a + b)[1..] == a[1..] + b;
      assert c in a[1..];
      FirstIndexWithin(a[1..], b, c);
    }
  }

  /** A line holding a carriage return yields a match. */
  lemma LineTriggerPresent(line: string)
    requires '\r' in line
    ensures LineTrigger(line) != []
  {
    assert line[..|line|] == line;
  }

  /** A carriage return anywhere gives at least one match: its line yields one. */
  lemma {:induction false} CarriageReturnTriggers(t: string)
    requires '\r' in t
    ensures LineTriggers(t) != []
    decreases |t|
  {
    var k := FirstIndex(t, '\n');
    if '\r' in t[..k] {
      LineTriggerPresent(t[..k]);
    } else {
      var i :| 0 <= i < |t| && t[i] == '\r';
      assert t[..|t|] == t;
      assert k <= i && k < |t| && i != k;
      assert t[k + 1..][i - k - 1] == '\r';
      CarriageReturnTriggers(t[k + 1..]);
    }
  }

  /** With a parameter block and a value without line feeds, verify mode decodes the
      whole tail after `# Param\r`, which keeps the `# Trigger` header and so always
      contains `#`. */
  lemma ParamTailKeepsMarker(code: string, v: string)
    requires '\n' !in v
    ensures var m := v + CONTINUATION + TRIGGER_HEADER + Payload(code);
      Decode(Encode(code, Some(v))) == Some(Strip(m)) && '#' in Strip(m)
  {
    var p := Payload(code);
    var m := v + (CONTINUATION + TRIGGER_HEADER + p);
    ParamBlobShape(v, p, m);
    SingleLineTrigger("# Param", m);
    ParamTailHasMarker(v, p);
  }

  /** The tail after `# Param\r`, with the payload `p` left abstract: stripping it
      keeps the separator and the trigger header whole. */
  lemma ParamTailHasMarker(v: string, p: string)
    ensures '#' in Strip(v + CONTINUATION + TRIGGER_HEADER + p)
  {
    SeparatorPieces();
    MarkerSurvives(v, "\r", SEPARATOR, TRIGGER_MARK, "\r", p);
  }

  /** The separator and the trigger header around the text they share. */
  lemma SeparatorPieces()
    ensures CONTINUATION == "\r" + SEPARATOR && TRIGGER_HEADER == TRIGGER_MARK + "\r"
    ensures SEPARATOR != [] && !IsSpace(SEPARATOR[0])
    ensures TRIGGER_MARK != [] && TRIGGER_MARK[0] == '#' && !IsSpace(TRIGGER_MARK[|TRIGGER_MARK| - 1])
  {
  }

  /** A `#` that opens a stripped middle part `c + h` survives stripping. */
  lemma MarkerSurvives(v: string, r1: string, c: string, h: string, r2: string, p: string)
    requires c != [] && !IsSpace(c[0]) && h != [] && h[0] == '#' && !IsSpace(h[|h| - 1])
    ensures '#' in Strip(v + (r1 + c) + (h + r2) + p)
  {
    var y := c + h;
    var x, z := v + r1, r2 + p;
    assert v + (r1 + c) + (h + r2) + p == x + y + z;
    assert Strip(x + y + z) == TrimStart(x) + y + TrimEnd(z) by {
      assert y[0] == c[0] && y[|y| - 1] == h[|h| - 1];
      StripAround(x, y, z);
    }
    assert y[|c|] == '#';
    MiddleIn(TrimStart(x), y, TrimEnd(z), |c|);
  }

  lemma MiddleIn(x: string, y: string, z: string, i: nat)
    requires i < |y|
    ensures y[i] in x + y + z
  {
    assert (x + y + z)[|x| + i] == y[i];
  }

  /** The parameter-block blob around a payload `p`, with `p` left abstract. */
  lemma ParamBlobMatch(v: string, p: string)
    requires '\n' !in v && '\n' !in p
    requires p != [] && IsStripped(p)
    ensures FindTriggers(PARAM_HEADER + v + CONTINUATION + (TRIGGER_HEADER + p)) == [v + CONTINUATION + TRIGGER_HEADER + p]
    ensures Strip(v + CONTINUATION + TRIGGER_HEADER + p) != p
  {
    var m := v + (CONTINUATION + TRIGGER_HEADER + p);
    ParamBlobShape(v, p, m);
    SingleLineTrigger("# Param", m);
    ParamMatchLonger(v, p, m);
  }

  lemma ParamBlobShape(v: string, p: string, m: string)
    requires '\n' !in v && '\n' !in p
    requires m == v + (CONTINUATION + TRIGGER_HEADER + p)
    ensures m == v + CONTINUATION + TRIGGER_HEADER + p
    ensures PARAM_HEADER + v + CONTINUATION + (TRIGGER_HEADER + p) == "# Param" + "\r" + m
    ensures '\n' !in m
  {
    var tail := CONTINUATION + TRIGGER_HEADER + p;
    assert '\n' !in tail;
  }

  lemma ParamMatchLonger(v: string, p: string, m: string)
    requires p != [] && IsStripped(p)
    requires m == v + (CONTINUATION + TRIGGER_HEADER + p)
    ensures Strip(m) != p
  {
    var tail := CONTINUATION + TRIGGER_HEADER + p;
    assert m[|v| + 1] == tail[1] == '/';
    assert m[|m| - |p|..] == p;
    StripKeepsTail(m, |v| + 1, p);
  }

  /** Stripping `m` cannot shorten it below the text after a non-space character at
      index `a` when `m` ends with a stripped, non-empty `p`. */
  lemma StripKeepsTail(m: string, a: nat, p: string)
    requires a < |m| && !IsSpace(m[a])
    requires p != [] && IsStripped(p) && |p| < |m| - a
    requires m[|m| - |p|..] == p
    ensures Strip(m) != p
  {
    var t := TrimStart(m);
    assert |m| - |t| <= a;
    assert t[|t| - 1] == m[|m| - 1] == p[|p| - 1];
    assert TrimEnd(t) == t;
    assert |Strip(m)| >= |m| - a > |p|;
  }
}

=== FILE: filters.dfy ===
/**
 * The filter chain of the evaluator: cheap string predicates over the file path,
 * the rule's location pattern and the matched code (engine/core.py, `Core.is_*`).
 */
module Filters {
  import opened Text

  /** The substring that marks a minified asset. */
  const SPECIAL_FILE_MARKER: string := ".min.js"

  /** `is_white_list`: the path is one of the project's white-listed paths. */
  predicate IsWhiteList(filePath: string, whiteList: seq<string>) {
    filePath in whiteList
  }

  /** `is_special_file`: the path names a minified asset. */
  predicate IsSpecialFile(filePath: string) {
    Contains(filePath, SPECIAL_FILE_MARKER)
  }

  /** Python's `s[:n]`. */
  function Take(s: string, n: nat): (r: string)
    ensures |r| == if n <= |s| then n else |s|
  {
    if n <= |s| then s[..n] else s
  }

  /** `is_match_only_rule`: `location[:1] == '(' and location[-1] == ')'`. The
      short-circuit `and` means the index is only taken of a non-empty pattern. */
  predicate IsMatchOnlyRule(location: string) {
    Take(location, 1) == "(" && location[|location| - 1] == ')'
  }

  /** A match-only location is exactly a non-empty pattern wrapped in parentheses;
      a lone `(` is not one. */
  lemma MatchOnlyShape(location: string)
    ensures IsMatchOnlyRule(location) <==>
      |location| >= 2 && location[0] == '(' && location[|location| - 1] == ')'
  {
    if |location| > 0 {
      assert Take(location, 1) == [location[0]];
    }
  }

  /** One alternative of the comment pattern `#`, `\*`, `//` or `*` matches at the
      start of `s`. */
  predicate MarkerAt(s: string) {
    && |s| > 0
    && (|| s[0] == '#'
        || (s[0] == '\\' && |s| > 1 && s[1] == '*')
        || (s[0] == '/' && |s| > 1 && s[1] == '/')
        || s[0] == '*')
  }

  /** `re.findall` of the comment pattern is non-empty: some position of `s` starts
      a match. */
  predicate HasMarker(s: string)
    decreases |s|
  {
    |s| > 0 && (MarkerAt(s) || HasMarker(s[1..]))
  }

  /** `is_annotation`: the code looks like a comment, except that match-only rules
      are never filtered as annotations. */
  predicate IsAnnotation(location: string, code: string) {
    if IsMatchOnlyRule(location) then false else HasMarker(code)
  }

  /** The comment pattern finds a match exactly when the code contains `#`, `*` or
      `//`: the `\*` alternative is subsumed by the bare `*`. */
  lemma {:induction false} HasMarkerIff(s: string)
    ensures HasMarker(s) <==> '#' in s || '*' in s || Contains(s, "//")
    decreases |s|
  {
    if |s| > 0 {
      HasMarkerIff(s[1..]);
      assert s == [s[0]] + s[1..];
      assert '#' in s <==> s[0] == '#' || '#' in s[1..];
      assert '*' in s <==> s[0] == '*' || '*' in s[1..];
      assert StartsWith(s, "//") <==> |s| > 1 && s[0] == '/' && s[1] == '/';
    } else {
      assert !StartsWith(s, "//");
    }
  }

  /** The annotation filter holds exactly for a rule that is not match-only and code
      containing `#`, `*` or `//`. */
  lemma AnnotationIff(location: string, code: string)
    ensures IsAnnotation(location, code) <==>
      !IsMatchOnlyRule(location) && ('#' in code || '*' in code || Contains(code, "//"))
  {
    HasMarkerIff(code);
  }
}

=== FILE: findings.dfy ===
/**
 * The persisted findings and `process_vulnerabilities` (engine/core.py, lines 111-143):
 * the dedup lookup, the one-way status update, the insert of a new record, and the
 * notifications pushed to the third-party tracker.
 */
module Findings {
  import opened Wrappers
  import opened Text

  /** Record status, stored as 0 (new), 1 (reserved, never written by the evaluator)
      and 2 (fixed). */
  datatype Status = New | Reserved | Fixed

  /** A persisted finding, as the `CobraResults` row the evaluator creates. */
  datatype Record = Record(
    id: nat, taskId: nat, projectId: nat, ruleId: nat,
    file: string, line: nat, code: string, status: Status)

  /** One push to the tracker's queue, naming the record it reports. */
  datatype Notification = Notification(
    projectName: string, vulnName: string, vulnType: string,
    file: string, line: nat, evidence: string, recordId: nat)

  /** The store of records and the log of notifications pushed so far. */
  datatype World = World(store: seq<Record>, pushes: seq<Notification>)

  /** The evaluator's view of the match being persisted. */
  datatype Finding = Finding(
    projectId: nat, projectDirectory: string, ruleId: nat, taskId: nat,
    projectName: string, vulnName: string, vulnType: string,
    filePath: string, line: nat, code: string, status: Status)

  /** The dedup key. A line of 0 stands for a whole-file match and is left out of
      the lookup. */
  datatype Key = Key(projectId: nat, ruleId: nat, file: string, line: nat)

  /** The path relative to the project directory (line 118). */
  function RelativePath(f: Finding): string {
    RemoveAll(f.filePath, f.projectDirectory)
  }

  function KeyOf(f: Finding): Key {
    Key(f.projectId, f.ruleId, RelativePath(f), f.line)
  }

  /** The filter of lines 120-123. */
  predicate Matches(r: Record, k: Key) {
    r.projectId == k.projectId && r.ruleId == k.ruleId && r.file == k.file
    && (k.line == 0 || r.line == k.line)
  }

  /** `.first()`: the index of the first record the key matches. */
  function Lookup(store: seq<Record>, k: Key): (i: Option<nat>)
    ensures i.None? <==> forall j :: 0 <= j < |store| ==> !Matches(store[j], k)
    ensures i.Some? ==> i.value < |store| && Matches(store[i.value], k)
    ensures i.Some? ==> forall j :: 0 <= j < i.value ==> !Matches(store[j], k)
  {
    if store == [] then None
    else if Matches(store[0], k) then Some(0)
    else match Lookup(store[1..], k)
      case None => None
      case Some(j) => Some(j + 1)
  }

  /** The largest record id in the store. */
  function MaxId(store: seq<Record>): (m: nat)
    ensures forall j :: 0 <= j < |store| ==> store[j].id <= m
    ensures store == [] || exists j :: 0 <= j < |store| && store[j].id == m
  {
    if store == [] then 0
    else
      var rest := MaxId(store[1..]);
      if store[0].id >= rest then store[0].id else rest
  }

  /** The id the store assigns to an inserted record: one no record holds. */
  function FreshId(store: seq<Record>): (id: nat)
    ensures forall j :: 0 <= j < |store| ==> store[j].id != id
  {
    MaxId(store) + 1
  }

  function Push(f: Finding, recordId: nat): Notification {
    Notification(f.projectName, f.vulnName, f.vulnType, RelativePath(f), f.line, f.code, recordId)
  }

  /** `store'` is `store` with at most some records appended, where every old record
      keeps all its fields but possibly its status, and a status only ever changes
      to fixed. */
  predicate Evolves(store: seq<Record>, store': seq<Record>) {
    && |store| <= |store'|
    && forall j :: 0 <= j < |store| ==>
        store'[j] == store[j].(status := store'[j].status)
        && (store'[j].status == store[j].status || store'[j].status == Fixed)
  }

  /** `process_vulnerabilities`: a found record is replayed to the tracker while it
      is new and set to fixed when the finding is fixed; otherwise one record is
      inserted and pushed. */
  function Process(w: World, f: Finding): (w': World)
    ensures Evolves(w.store, w'.store)
    ensures |w'.store| <= |w.store| + 1
    ensures |w'.store| == |w.store| + 1 <==> forall j :: 0 <= j < |w.store| ==> !Matches(w.store[j], KeyOf(f))
    ensures |w.pushes| <= |w'.pushes| <= |w.pushes| + 1 && w'.pushes[..|w.pushes|] == w.pushes
  {
    var k := KeyOf(f);
    match Lookup(w.store, k)
    case Some(i) =>
      var existing := w.store[i];
      var pushes := if existing.status == New then w.pushes + [Push(f, existing.id)] else w.pushes;
      var store := if f.status == Fixed then w.store[i := existing.(status := Fixed)] else w.store;
      World(store, pushes)
    case None =>
      var id := FreshId(w.store);
      var record := Record(id, f.taskId, f.projectId, f.ruleId, k.file, f.line, f.code, f.status);
      World(w.store + [record], w.pushes + [Push(f, id)])
  }

  /** A lookup hit (lines 126-137): nothing is inserted; only the first matching
      record may change, and only to fixed when the finding is fixed; it is replayed
      to the tracker exactly when its status is new. */
  lemma ProcessExisting(w: World, f: Finding, i: nat)
    requires i < |w.store| && Matches(w.store[i], KeyOf(f))
    requires forall j :: 0 <= j < i ==> !Matches(w.store[j], KeyOf(f))
    ensures var w' := Process(w, f);
      && |w'.store| == |w.store|
      && (forall j :: 0 <= j < |w.store| && j != i ==> w'.store[j] == w.store[j])
      && w'.store[i].status == (if f.status == Fixed then Fixed else w.store[i].status)
      && w'.pushes == (if w.store[i].status == New then w.pushes + [Push(f, w.store[i].id)] else w.pushes)
  {
    var r := Lookup(w.store, KeyOf(f));
    assert r.Some?;
    assert r.value == i;
  }

  /** A lookup miss (lines 139-143): exactly one record is appended, under a fresh
      id, carrying the finding's key, status and evidence, and it is pushed. */
  lemma ProcessMissing(w: World, f: Finding)
    requires forall j :: 0 <= j < |w.store| ==> !Matches(w.store[j], KeyOf(f))
    ensures var w' := Process(w, f);
      && |w'.store| == |w.store| + 1
      && w'.store[..|w.store|] == w.store
      && var r := w'.store[|w.store|];
      && (forall j :: 0 <= j < |w.store| ==> w.store[j].id != r.id)
      && Matches(r, KeyOf(f)) && r.line == f.line && r.taskId == f.taskId
      && r.status == f.status && r.code == f.code
      && w'.pushes == w.pushes + [Push(f, r.id)]
  {
  }

  /** The lookup ignores statuses, so a store that only evolved finds the same record. */
  lemma {:induction false} LookupEvolved(store: seq<Record>, store': seq<Record>, k: Key)
    requires Evolves(store, store')
    requires Lookup(store, k).Some?
    ensures Lookup(store', k) == Lookup(store, k)
  {
    var i := Lookup(store, k).value;
    assert Matches(store'[i], k);
    forall j | 0 <= j < i
      ensures !Matches(store'[j], k)
    {
      assert !Matches(store[j], k);
    }
    LookupFirst(store', k, i);
  }

  /** The first matching index is what the lookup returns. */
  lemma LookupFirst(store: seq<Record>, k: Key, i: nat)
    requires i < |store| && Matches(store[i], k)
    requires forall j :: 0 <= j < i ==> !Matches(store[j], k)
    ensures Lookup(store, k) == Some(i)
  {
    var r := Lookup(store, k);
  }

  /** Repeating `process_vulnerabilities` with the same finding inserts nothing and
      leaves every record as the first call left it: at most one record is ever
      created per key and the status is never reverted. */
  lemma ProcessTwice(w: World, f: Finding)
    ensures var w1 := Process(w, f);
      && Process(w1, f).store == w1.store
      && |w1.store| <= |w.store| + 1
  {
    var k := KeyOf(f);
    var w1 := Process(w, f);
    match Lookup(w.store, k)
    case Some(i) =>
      ProcessExisting(w, f, i);
      LookupEvolved(w.store, w1.store, k);
      ProcessExisting(w1, f, i);
      assert Process(w1, f).store == w1.store;
    case None =>
      ProcessMissing(w, f);
      LookupFirst(w1.store, k, |w.store|);
      ProcessExisting(w1, f, |w.store|);
      assert Process(w1, f).store == w1.store;
  }
}

=== FILE: properties.dfy ===
/**
 * Properties of the finding evaluator: the fixed order of the decision chain, when
 * the analyzer matters, the evidence round trip between scan and verify mode, and
 * what repeated evaluations do to the store.
 */
module CoreProperties {
  import opened Wrappers
  import opened Text
  import opened Filters
  import Evidence
  import opened Findings
  import opened Core

  /** The constructor leaves path, code and patterns stripped and the status new. */
  lemma InitStripped(c: Candidate, rule: Rule, projectName: string, whiteList: seq<string>)
    ensures var s := Init(c, rule, projectName, whiteList);
      && IsStripped(s.finding.filePath) && IsStripped(s.finding.code)
      && IsStripped(s.location) && IsStripped(s.repair)
      && s.finding.status == New && s.whiteList == whiteList
  {
  }

  /** An empty location pattern confirms the file with 1001, whatever the white list,
      path or code; only in verify mode with the file gone is the finding fixed. */
  lemma FileRuleConfirmed(s: State, mode: Mode, fileExists: bool, analysis: Analysis, whiteList: seq<string>)
    requires s.location == "" && s.finding.status == New
    requires Prepare(s, mode).Some?
    ensures var d := Decide(s, mode, fileExists, analysis);
      && d.ok && d.code == FILE_RULE_CONFIRMED && d.persist.Some?
      && d.persist.value == Prepare(s, mode).value.finding.(status := d.persist.value.status)
      && (d.persist.value.status == Fixed <==> mode == Verify && !fileExists)
      && (d.persist.value.status == New <==> !(mode == Verify && !fileExists))
      && Decide(s.(whiteList := whiteList), mode, fileExists, analysis) == d
  {
    assert Prepare(s.(whiteList := whiteList), mode) == Some(Prepare(s, mode).value.(whiteList := whiteList));
  }

  /** The filters apply in a fixed order: the white list wins over the special-file
      test, which wins over the annotation test; none of them persists anything. */
  lemma FilterPrecedence(s: State, mode: Mode, fileExists: bool, analysis: Analysis)
    requires s.location != ""
    ensures var d := Classify(s, mode, fileExists, analysis);
      var path := s.finding.filePath;
      && (IsWhiteList(path, s.whiteList) ==> d == Decision(false, WHITE_LISTED, None))
      && (!IsWhiteList(path, s.whiteList) && IsSpecialFile(path) ==> d == Decision(false, SPECIAL_FILE, None))
      && (!IsWhiteList(path, s.whiteList) && !IsSpecialFile(path) && IsAnnotation(s.location, s.finding.code)
          ==> d == Decision(false, IN_ANNOTATION, None))
  {
  }

  /** A match-only rule that passes the white-list and special-file filters is never
      an annotation and is confirmed with 1002 without the analyzer; its evidence has
      no parameter block and decodes back to the stored payload. */
  lemma MatchOnlyConfirmed(s: State, mode: Mode, fileExists: bool, analysis: Analysis)
    requires s.location != "" && IsMatchOnlyRule(s.location)
    requires !IsWhiteList(s.finding.filePath, s.whiteList) && !IsSpecialFile(s.finding.filePath)
    requires IsStripped(s.finding.code)
    ensures !IsAnnotation(s.location, s.finding.code)
    ensures var d := Classify(s, mode, fileExists, analysis);
      && d.ok && d.code == CONFIRMED && d.persist.Some?
      && d.persist.value == s.finding.(code := Evidence.Encode(s.finding.code, None))
      && Evidence.Decode(d.persist.value.code) == Some(Evidence.Payload(s.finding.code))
  {
    Evidence.DecodeEncode(s.finding.code);
  }

  /** The analyzer's answer matters only when every filter passed, the rule is not
      match-only, the path ends in `php` and the repair pattern is non-empty. */
  lemma AnalyzerConsultedOnlyWhen(s: State, mode: Mode, fileExists: bool, a1: Analysis, a2: Analysis)
    requires Classify(s, mode, fileExists, a1) != Classify(s, mode, fileExists, a2)
    ensures s.location != ""
    ensures !IsWhiteList(s.finding.filePath, s.whiteList) && !IsSpecialFile(s.finding.filePath)
    ensures !IsAnnotation(s.location, s.finding.code) && !IsMatchOnlyRule(s.location)
    ensures AnalyzerApplies(s)
  {
  }

  /** Where the analyzer is consulted: an exception gives 4005 and an uncontrollable
      parameter 4004, both without persisting; a repaired match persists the finding
      as fixed, with its code unencoded, and gives 1003; otherwise the match is
      confirmed with the captured parameter value in its evidence. */
  lemma AnalyzerOutcomes(s: State, mode: Mode, fileExists: bool, analysis: Analysis)
    requires s.location != "" && !IsMatchOnlyRule(s.location)
    requires !IsWhiteList(s.finding.filePath, s.whiteList) && !IsSpecialFile(s.finding.filePath)
    requires !IsAnnotation(s.location, s.finding.code)
    requires AnalyzerApplies(s)
    ensures var d := Classify(s, mode, fileExists, analysis);
      match analysis
      case Raises => d == Decision(false, ANALYZER_FAILED, None)
      case Uncontrollable => d == Decision(false, UNCONTROLLABLE, None)
      case Controllable(repaired, paramValue) =>
        && d.ok && d.persist.Some?
        && (repaired ==> d.code == CONFIRMED_FIXED && d.persist.value == s.finding.(status := Fixed))
        && (!repaired ==> d.code == CONFIRMED && d.persist.value == s.finding.(code := Evidence.Encode(s.finding.code, paramValue)))
  {
  }

  /** A rule that is neither match-only nor eligible for the analyzer falls through
      to 4006 and persists nothing. */
  lemma UnclassifiedFallthrough(s: State, mode: Mode, fileExists: bool, analysis: Analysis)
    requires s.location != "" && !IsMatchOnlyRule(s.location)
    requires !IsWhiteList(s.finding.filePath, s.whiteList) && !IsSpecialFile(s.finding.filePath)
    requires !IsAnnotation(s.location, s.finding.code)
    requires !AnalyzerApplies(s)
    ensures Classify(s, mode, fileExists, analysis) == Decision(false, UNCLASSIFIED, None)
  {
  }

  /** Verify mode rejects evidence without exactly one trigger match with 4009 before
      any other check, leaving the world untouched. */
  lemma MalformedEvidenceRejected(s: State, fileExists: bool, analysis: Analysis, w: World)
    requires |Evidence.FindTriggers(s.finding.code)| != 1
    ensures Analyse(s, Verify, fileExists, analysis, w) == Outcome(false, MALFORMED_EVIDENCE, w)
  {
  }

  /** Verify mode on evidence with a parameter block never reaches the analyzer for a
      rule that is neither a file rule nor match-only: a value holding a line feed
      gives 4009, and otherwise the decoded tail keeps `# Trigger`, so the annotation
      filter gives 4002 unless the white list or the special-file test stopped it. */
  lemma ParamEvidenceNotReanalysed(s: State, code: string, v: string, fileExists: bool, analysis: Analysis)
    requires s.finding.code == Evidence.Encode(code, Some(v))
    requires s.location != "" && !IsMatchOnlyRule(s.location)
    ensures var d := Decide(s, Verify, fileExists, analysis);
      var path := s.finding.projectDirectory + s.finding.filePath;
      && d.persist == None
      && d.code == (if '\n' in v then MALFORMED_EVIDENCE
                    else if IsWhiteList(path, s.whiteList) then WHITE_LISTED
                    else if IsSpecialFile(path) then SPECIAL_FILE
                    else IN_ANNOTATION)
  {
    if '\n' in v {
      Evidence.ParamLineFeedRejected(code, v);
    } else {
      Evidence.ParamTailKeepsMarker(code, v);
      var m := Strip(v + Evidence.CONTINUATION + Evidence.TRIGGER_HEADER + Evidence.Payload(code));
      AnnotationIff(s.location, m);
    }
  }

  /** A file-existence rule does not read the code, so evidence with a parameter
      block whose value holds no line feed is confirmed again with 1001, and the
      finding is marked fixed exactly when the file is gone. */
  lemma ParamEvidenceFileRule(s: State, code: string, v: string, fileExists: bool, analysis: Analysis)
    requires s.finding.code == Evidence.Encode(code, Some(v)) && '\n' !in v
    requires s.location == ""
    ensures var d := Decide(s, Verify, fileExists, analysis);
      && d.ok && d.code == FILE_RULE_CONFIRMED && d.persist.Some?
      && (d.persist.value.status == Fixed <==> !fileExists || s.finding.status == Fixed)
  {
    Evidence.ParamTailKeepsMarker(code, v);
  }

  /** The candidate a later verify run is built from: the stored record's relative
      path and its evidence blob in place of the scanned path and code. */
  function StoredCandidate(c: Candidate, rule: Rule, projectName: string, whiteList: seq<string>): Candidate {
    var f := Init(c, rule, projectName, whiteList).finding;
    c.(code := Evidence.Encode(f.code, None), filePath := RelativePath(f))
  }

  /** Evidence written by a scan-mode confirmation without a parameter value survives
      the verify-side constructor's strip and yields the stored payload as the code;
      the path becomes the project directory followed by the stored relative path. */
  lemma ScanThenVerify(c: Candidate, rule: Rule, projectName: string, whiteList: seq<string>)
    requires Strip(c.code) != []
    ensures var s := Init(c, rule, projectName, whiteList);
      var v := Init(StoredCandidate(c, rule, projectName, whiteList), rule, projectName, whiteList);
      && v.finding.code == Evidence.Encode(s.finding.code, None)
      && Prepare(v, Verify) == Some(v.(finding := v.finding.(
           filePath := c.projectDirectory + v.finding.filePath,
           code := Evidence.Payload(s.finding.code))))
  {
    var code := Strip(c.code);
    Evidence.EncodeStripped(code);
    StripStripped(Evidence.Encode(code, None));
    Evidence.DecodeEncode(code);
    Evidence.FindTriggersByLine(Evidence.Encode(code, None));
  }

  /** Whitespace-only code, which strips to nothing, is still confirmed in scan mode,
      but its blob is the bare trigger header, which the verify-side constructor strips
      to `# Trigger`: verify mode then finds no match and rejects it with 4009. */
  lemma EmptyCodeNotReverifiable(c: Candidate, rule: Rule, projectName: string, whiteList: seq<string>,
                                 fileExists: bool, analysis: Analysis, w: World)
    requires forall i :: 0 <= i < |c.code| ==> IsSpace(c.code[i])
    ensures var v := Init(StoredCandidate(c, rule, projectName, whiteList), rule, projectName, whiteList);
      && v.finding.code == "# Trigger"
      && Analyse(v, Verify, fileExists, analysis, w) == Outcome(false, MALFORMED_EVIDENCE, w)
  {
    StripEmptyIff(c.code);
    Evidence.EmptyCodeBlob();
  }

  /** The absolute path built in verify mode is made relative again when the finding
      is persisted, so it is looked up under the stored relative path, as long as
      that path does not itself contain the project directory. */
  lemma VerifyKeepsKey(s: State)
    requires s.finding.projectDirectory == [] || !Contains(s.finding.filePath, s.finding.projectDirectory)
    ensures forall t :: Prepare(s, Verify) == Some(t) ==> KeyOf(t.finding).file == s.finding.filePath
  {
    RemovePrefixedDirectory(s.finding.projectDirectory, s.finding.filePath);
  }

  /** Two evaluations of the same match in a row give the same verdict; the second
      leaves the store as the first left it, so at most one record is inserted. */
  lemma AnalyseTwice(s: State, mode: Mode, fileExists: bool, analysis: Analysis, w: World)
    ensures var r1 := Analyse(s, mode, fileExists, analysis, w);
      var r2 := Analyse(s, mode, fileExists, analysis, r1.world);
      && r2.ok == r1.ok && r2.code == r1.code
      && r2.world.store == r1.world.store
      && |r1.world.store| <= |w.store| + 1
  {
    var d := Decide(s, mode, fileExists, analysis);
    if d.persist.Some? {
      ProcessTwice(w, d.persist.value);
    }
  }
}

=== FILE: text.dfy ===
/**
 * The string primitives the evaluator relies on: Python's `str.strip()`,
 * substring tests, and `str.replace(old, '')`.
 */
module Text {

  /** The ASCII whitespace that `str.strip()` removes and that the `\s` class of
      a regular expression without the Unicode flag matches. */
  predicate IsSpace(c: char) {
    c == ' ' || c == '\t' || c == '\n' || c == '\r' || c as int == 0x0B || c as int == 0x0C
  }

  /** `s.lstrip()`: the longest suffix of `s` that does not start with whitespace. */
  function TrimStart(s: string): (r: string)
    ensures |r| <= |s| && r == s[|s| - |r|..]
    ensures forall i :: 0 <= i < |s| - |r| ==> IsSpace(s[i])
    ensures r == [] || !IsSpace(r[0])
  {
    if |s| > 0 && IsSpace(s[0]) then
      var r := TrimStart(s[1..]);
      assert s[1..][|s| - 1 - |r|..] == s[|s| - |r|..];
      r
    else s
  }

  /** `s.rstrip()`: the longest prefix of `s` that does not end with whitespace. */
  function TrimEnd(s: string): (r: string)
    ensures |r| <= |s| && r == s[..|r|]
    ensures forall i :: |r| <= i < |s| ==> IsSpace(s[i])
    ensures r == [] || !IsSpace(r[|r| - 1])
  {
    if |s| > 0 && IsSpace(s[|s| - 1]) then TrimEnd(s[..|s| - 1]) else s
  }

  /** A string is in stripped form when neither end is whitespace. */
  predicate IsStripped(s: string) {
    s == [] || (!IsSpace(s[0]) && !IsSpace(s[|s| - 1]))
  }

  /** `s.strip()`. */
  function Strip(s: string): (r: string)
    ensures |r| <= |s|
    ensures IsStripped(r)
  {
    TrimEnd(TrimStart(s))
  }

  /** Stripping a string already in stripped form changes nothing. */
  lemma StripStripped(s: string)
    requires IsStripped(s)
    ensures Strip(s) == s
  {
    assert TrimStart(s) == s;
  }

  /** `str.strip()` is idempotent. */
  lemma StripIdempotent(s: string)
    ensures Strip(Strip(s)) == Strip(s)
  {
    StripStripped(Strip(s));
  }

  /** `s.strip()` is empty exactly when `s` is whitespace only. */
  lemma StripEmptyIff(s: string)
    ensures Strip(s) == [] <==> forall i :: 0 <= i < |s| ==> IsSpace(s[i])
  {
    var t := TrimStart(s);
    if !forall i :: 0 <= i < |s| ==> IsSpace(s[i]) {
      var i :| 0 <= i < |s| && !IsSpace(s[i]);
      assert i >= |s| - |t|;
      var k := i - (|s| - |t|);
      assert t[k] == s[i] && !IsSpace(t[k]);
      assert |TrimEnd(t)| > k;
    }
  }

  /** `lstrip` stops at a suffix that starts with a non-space character. */
  lemma {:induction false} TrimStartAppend(x: string, y: string)
    requires y != [] && !IsSpace(y[0])
    ensures TrimStart(x + y) == TrimStart(x) + y
    decreases |x|
  {
    if x == [] {
      assert x + y == y;
    } else if IsSpace(x[0]) {
      assert (x + y)[1..] == x[1..] + y;
      TrimStartAppend(x[1..], y);
    }
  }

  /** `rstrip` stops at a prefix that ends with a non-space character. */
  lemma {:induction false} TrimEndAppend(x: string, y: string)
    requires x != [] && !IsSpace(x[|x| - 1])
    ensures TrimEnd(x + y) == x + TrimEnd(y)
    decreases |y|
  {
    if y == [] {
      assert x + y == x;
    } else if IsSpace(y[|y| - 1]) {
      assert (x + y)[..|x + y| - 1] == x + y[..|y| - 1];
      TrimEndAppend(x, y[..|y| - 1]);
    }
  }

  /** Stripping keeps a stripped, non-empty middle part whole: only the text
      before it loses leading whitespace and the text after it trailing. */
  lemma StripAround(x: string, y: string, z: string)
    requires y != [] && IsStripped(y)
    ensures Strip(x + y + z) == TrimStart(x) + y + TrimEnd(z)
  {
    TrimStartBefore(x, y, z);
    TrimEndAfter(TrimStart(x), y, z);
  }

  lemma TrimStartBefore(x: string, y: string, z: string)
    requires y != [] && !IsSpace(y[0])
    ensures TrimStart(x + y + z) == TrimStart(x) + (y + z)
  {
    Associative(x, y, z);
    assert (y + z)[0] == y[0];
    TrimStartAppend(x, y + z);
  }

  lemma TrimEndAfter(t: string, y: string, z: string)
    requires y != [] && !IsSpace(y[|y| - 1])
    ensures TrimEnd(t + (y + z)) == t + y + TrimEnd(z)
  {
    Associative(t, y, z);
    assert (t + y)[|t + y| - 1] == y[|y| - 1];
    TrimEndAppend(t + y, z);
  }

  lemma Associative(a: string, b: string, c: string)
    ensures a + (b + c) == a + b + c
  {
  }

  predicate StartsWith(s: string, prefix: string) {
    |prefix| <= |s| && s[..|prefix|] == prefix
  }

  /** Python's `pat in s` for strings: `pat` occurs somewhere in `s`. */
  predicate Contains(s: string, pat: string)
    decreases |s|
  {
    StartsWith(s, pat) || (|s| > 0 && Contains(s[1..], pat))
  }

  /** Python's `s.replace(pat, '')`: occurrences of `pat` are removed left to right,
      without overlap; an empty `pat` leaves `s` unchanged. */
  function RemoveAll(s: string, pat: string): (r: string)
    ensures |r| <= |s|
    ensures !Contains(s, pat) ==> r == s
    decreases |s|
  {
    if pat == [] then s
    else if StartsWith(s, pat) then RemoveAll(s[|pat|..], pat)
    else if s == [] then []
    else [s[0]] + RemoveAll(s[1..], pat)
  }

  /** Prefixing a directory and then removing every occurrence of it gives the path
      back, provided the path does not itself contain the directory. */
  lemma RemovePrefixedDirectory(dir: string, path: string)
    requires dir == [] || !Contains(path, dir)
    ensures RemoveAll(dir + path, dir) == path
  {
    if dir != [] {
      assert StartsWith(dir + path, dir);
      assert (dir + path)[|dir|..] == path;
    }
  }
}

=== FILE: wrappers.dfy ===
/** An optional value: `None` when absent, `Some(value)` when present. */
module Wrappers {

  datatype Option<+T> = None | Some(value: T)
}
